=== FILE: README.md ===
# Ball-merge game: the merge bookkeeping, in Dafny

This project models the logical state of a suika-style game where players drop sports balls. Players drop balls into a container. When two balls of the same size class touch, they merge into one ball of the next class, and the player scores points. Phaser draws the game and Matter runs the physics. `game.js` only keeps the bookkeeping, and this model covers that bookkeeping:

- `droppedBalls`, the live balls;
- `mergeScheduled`, the ids already promised to a merge;
- `score`, `canDrop` and `currentBall`, the pending ball that is meant to follow the pointer (see Findings: as written, it does not).

The model keeps all of this in one immutable `Session` record. Every handler is a pure transition on that record:

- `prepareNextBall` and `dropBall` gate spawning and dropping (module `Spawn`).
- The clamp that `update` applies to the pointer's x is also in `Spawn`.
- `handleCollision` decides which collision pairs get merged, and refuses a ball that is already scheduled (module `Collision`).
- `mergeBalls` replaces two balls of tier t by one of tier t + 1 and adds `(t + 2) * 10` to the score (module `Merge`).

`Balls` holds the BALLS table: eleven tiers, with radii only. `GameState` holds the session and its invariant `Valid`, which says:

- live ball ids are distinct and below the id counter;
- each radius agrees with BALLS;
- every pending merge still qualifies, and both of its balls are live;
- no id belongs to two pending merges;
- `mergeScheduled` is exactly the set of ids in pending merges;
- `canDrop` holds exactly while a pending ball exists, and the spawn timer is running exactly while it does not;
- the pending ball is a tier in 0..3, and its x lies in [70, 530].

`Game` treats the engine's callbacks as events: a frame, a pointer press, a collision batch, a spawn timer firing, or a merge timer firing. It proves that every event keeps `Valid`, and that the score never goes down along a run.

Timers are explicit pending entries:
- `spawnPending` stands for the 500 ms `prepareNextBall` timer.
- `merges` is the queue of 50 ms `mergeBalls` timers.
- Any queued merge may fire next, because the engine does not promise an order.

Some inputs become parameters:
- The random tier of `prepareNextBall` is a parameter in 0..3.
- Fresh ids come from a counter (`nextId`) instead of `Date.now() + Math.random()`.
- The engine's collision pairs are an input. A pair's ball bodies must be live balls and its two bodies must differ (`Collision.Reported`).

The guard at the top of `mergeBalls` is modelled as the source writes it. It asks whether each body has a `ballObject`. That field is set when a ball body is created and never cleared. So the guard turns away walls only, and it would not notice a ball that was already merged. What protects a ball from a second merge is `mergeScheduled` (`Collision.ScheduledIdIsSkipped`, `Collision.HandleCollisionPreservesValid`).

A merge adds `(newType + 1) * 10`, where `newType` is the merged tier. So merging two tier-0 balls scores 20, not 10. The model follows the code, and `Game.MergeFires` and `Game.FirstMerge` show the 20.

## Model

| member | source | states |
|---|---|---|
| Balls.Qualifies | game.js:201-204 | a pair qualifies only when both bodies are balls of the same tier below BALLS.length - 1; then the merged tier indexes BALLS, and a largest-tier ball on either side never qualifies |
| Balls.RadiiIncreasing | game.js:23-35 | radii in the BALLS table strictly increase with the tier |
| GameState.QueuedIds | game.js:214-215 | the ids of every pending merge belong to the result; the invariant equates that result with mergeScheduled |
| GameState.QueuedIdsAppend | game.js:214-219 | queuing a merge adds exactly the pair's two ids to the scheduled ids |
| GameState.QueuedIdsRemove | game.js:249-250 | when one merge of a disjoint queue fires, exactly its ids leave the scheduled ids |
| GameState.DisjointAfterRemove | game.js:218-220 | after one merge fires, the merges still pending share no id |
| GameState.ScheduledBelowNextId | game.js:275 | every scheduled id belongs to a ball already created, so an id drawn afterwards is never scheduled |
| Spawn.Clamp | game.js:107 | the result lies in [lo, hi], equals x when x is inside, and equals the nearer bound otherwise |
| Spawn.Track | game.js:103-109 | the intended frame handler: while a pending ball exists and dropping is enabled, it keeps its tier and its x becomes Clamp(pointer x, 70, 530); otherwise nothing changes; nothing but the pending ball changes |
| Spawn.UpdateAsWritten | game.js:105-108 | the frame handler as written: the session is left exactly as it was, because the setPosition call on game.js:108 throws before any write |
| Spawn.UpdateAsWrittenIgnoresPointer | game.js:107-108 | on the first frame with the pointer at x = 10, the intended handler moves the pending ball to 70 and the written one leaves it at 300 |
| Spawn.PrepareNextBall | game.js:120-146 | the chosen tier (0..3) becomes the pending ball at x = 300 (game.js:136), dropping is re-enabled, and nothing else changes |
| Spawn.Start | game.js:37-45 | the session after create() is valid: no balls, no merges, score 0, dropping enabled with the chosen pending ball at x = 300 |
| Spawn.DropBall | game.js:148-193 | no-op when dropping is disabled or no ball is pending; otherwise dropping is disabled, the pending ball is cleared, the spawn timer starts, and one ball of the pending tier is appended with the old balls kept; merges, scheduled ids and score are untouched |
| Spawn.FireSpawn | game.js:192 | the spawn timer fires and runs prepareNextBall: a pending ball of the chosen tier, dropping enabled, balls, merges and score untouched |
| Spawn.TrackPreservesValid | game.js:105-108 | tracking the pointer keeps the session invariant, in particular the pending x stays in [70, 530] |
| Spawn.DropPreservesValid | game.js:180-189 | dropping keeps the invariant, and the dropped ball's id differs from every live ball's id |
| Spawn.FireSpawnPreservesValid | game.js:145 | the spawn timer keeps the invariant |
| Collision.Resolve | game.js:201-220 | a pair changes the session if and only if it qualifies and neither id is scheduled; then exactly that pair is queued and its ids are added; balls, score and flags never change |
| Collision.HandleCollision | game.js:195-223 | a batch only appends to the merge queue and the scheduled ids; every new entry is a qualifying pair of the batch; every qualifying pair of the batch has an id scheduled afterwards, so a skipped pair does not stop later pairs; a qualifying first pair with unscheduled ids is the first one queued |
| Collision.HandleCollisionSnoc | game.js:196 | the batch is resolved in forEach order: handling a batch and then one more pair is the same as resolving that pair after the whole batch |
| Game.EarlierPairWins | game.js:196-216 | of two conflicting pairs (A, B) and (B, C) in one batch, the earlier pair is queued and C is left unscheduled |
| Collision.HandleCollisionEvent | game.js:196-222 | the forEach loop over the pairs computes the same session as the pair-by-pair definition |
| Collision.ScheduledIdIsSkipped | game.js:209-211 | a pair with an id already in mergeScheduled leaves the session unchanged |
| Collision.ResolvePreservesValid | game.js:213-219 | scheduling a reported pair keeps the invariant: its balls are live and distinct, and it shares no id with pending merges |
| Collision.HandleCollisionPreservesValid | game.js:195-223 | a whole batch keeps the invariant; no id ends up in two pending merges |
| Merge.Without | game.js:246 | the filtered list holds exactly the balls other than the two given ones |
| Merge.WithoutCount | game.js:246 | the filter's length is the original length minus the number of copies of the two removed balls |
| Merge.ReplaceTwoByOne | game.js:246-272 | removing two distinct live balls and appending one with an unused id gives one ball fewer, with all ids still distinct |
| Merge.MergeBalls | game.js:225-281 | walls make it a no-op; otherwise the score grows by (newTier + 1) * 10; both ids leave mergeScheduled; the last ball has the next tier, BALLS' radius and a fresh id; the others are the old balls minus the two sources; merges and flags are untouched |
| Merge.FireMerge | game.js:218-220 | a fired merge timer leaves the queue and strictly raises the score |
| Merge.FireMergeBalls | game.js:229-272 | from a valid session, exactly the two source balls go and one larger ball of the next tier comes in; the ball count drops by exactly one; every other ball stays; both source ids leave mergeScheduled |
| Merge.FireMergeQueue | game.js:248-250 | after a merge fires, the remaining merges still have live balls, share no id, and mergeScheduled is exactly their ids |
| Merge.FireMergePreservesValid | game.js:275 | a fired merge keeps the invariant, and the new ball's id is not in mergeScheduled |
| Game.Next | game.js:93-100 | every handler keeps the invariant; only a merge changes the score, adding (tier + 2) * 10 and removing one ball net; frames, batches and spawns leave the balls alone; a press adds a ball only when dropping is enabled |
| Game.NextAsWritten | game.js:105-108 | with frames handled as written, every handler keeps the invariant, never lowers the score, and keeps the pending ball at x = 300 |
| Game.RunAsWritten | game.js:93-100 | every completed run with frames as written ends valid, with a score no lower than at the start |
| Game.PendingStaysAtSpawnAsWritten | game.js:108 | along every run with frames as written, a pending ball that starts at x = 300 stays there, whatever the pointer does |
| Game.AsWrittenFromStart | game.js:136 | from the start of the game, with frames as written, the pending ball is always at x = 300 |
| Game.Run | game.js:40 | every completed run from a valid session ends valid, with a score no lower than at the start |
| Game.RunPrefix | game.js:279 | every prefix of a completed run also completes, with a score no higher than the whole run's, so the score never goes down |
| Game.TwoDrops | game.js:148-193 | start, drop, spawn timer, drop: two tier-0 balls with ids 0 and 1, nothing scheduled, score 0 |
| Game.BatchQueuesOnce | game.js:209-219 | a batch reporting the same contact in both orders queues one merge; the reversed pair is skipped |
| Game.MergeFires | game.js:225-281 | the queued merge fires: one tier-1 ball with id 2 is left, nothing is scheduled, the score is 20 |
| Game.FirstMerge | game.js:195-281 | the whole sequence as one run from the start of the game |

## Left out

- Rendering: graphics objects, text labels, colours, names, the drop line and the container outline (game.js:1-101, 131-144, 166-171, 259-263). These are drawing calls into Phaser.
- Matter physics: creating and removing bodies, gravity, restitution, friction, density, and the per-frame sync of position and rotation (game.js:112-117, 155-164, 243-244, 253-257). Collision pairs are an input of the model.
- Positions: dropped balls carry no position, and the merge midpoint (game.js:233-234) is left out because it is floating point. The pending ball's x is an integer. Under the intended frame handler (`Spawn.Track`), the invariant keeps it in [70, 530]. Under the handler as written, it stays at 300 (see Findings). A dropped body is created at the graphics' x (game.js:156), which the model does not record. The fixed y of 100 is not modelled.
- Spawn.Track: the source does not do this. The model's event step `Game.Next` uses this intended handler, and the handler as written is `Spawn.UpdateAsWritten`. What Phaser does with the exception thrown on game.js:108 is not part of this model; its frame loop may stop altogether. In particular, the render sync on lines 112-117 is skipped on such frames. `Game.RunAsWritten` assumes that the engine keeps delivering frames, timers and collision batches after the throw.
- Timer durations: the 500 ms spawn delay and the 50 ms merge delay are pending entries that an event fires. How long they wait is not modelled.
- Randomness and clocks: the tier that `Phaser.Math.Between(0, 3)` draws is a parameter, and `Date.now() + Math.random()` ids are replaced by a counter. Two float ids could in principle collide; the model's ids cannot.
- Collision.Reported: this is an assumption about the engine, not something `game.js` checks. The ball bodies in a reported pair are live, and the two bodies differ. Without it, a merge of a stale body would append a ball without removing one.

## Findings

| source | as written | input that shows it | evidently intended | confidence | as-written member | corrected member |
|---|---|---|---|---|---|---|
| game.js:108 | `currentBall.setPosition(clampedX, 100)` is called on the plain record `{graphics, type, radius}` built at lines 138-142, which has no `setPosition`, so the call throws and the pending ball never moves | any frame after create() with a pending ball and `canDrop` true, e.g. pointer x = 10: the pending ball stays at 300 | move the pending ball's graphics, `currentBall.graphics.setPosition(clampedX, 100)`, so that dropBall (line 156) drops at the clamped pointer x | high, not executed | Spawn.UpdateAsWritten, Game.PendingStaysAtSpawnAsWritten, Spawn.UpdateAsWrittenIgnoresPointer | Spawn.Track, Spawn.TrackPreservesValid |

=== FILE: balls.dfy ===
/** The BALLS table of the game, the dropped-ball record and the bodies the
    physics engine reports in collision pairs. */
module Balls {

  /** Radii of the eleven sports balls of BALLS, smallest first. Names and
      colours only feed the drawing and are not modelled. */
  const Radii: seq<nat> := [15, 20, 25, 32, 38, 45, 52, 60, 68, 76, 85]

  /** BALLS.length */
  const TierCount: nat := |Radii|

  /** A size class: an index into BALLS. */
  type Tier = k: nat | k < TierCount

  /** BALLS.length - 1: the largest ball, which never merges further. */
  const Terminal: Tier := TierCount - 1

  /** prepareNextBall draws the next tier from 0..MaxStartTier. */
  const MaxStartTier: Tier := 3

  /** A dropped ball: its unique id, its tier and the radius read from BALLS. */
  datatype Ball = Ball(id: nat, tier: Tier, radius: nat)

  /** The radius of a ball agrees with the BALLS entry of its tier. */
  predicate WellFormed(b: Ball) {
    b.radius == Radii[b.tier]
  }

  /** A body of a collision pair: a static wall or floor, which carries no
      ballType, ballId or ballObject, or a ball body whose ballObject is the
      ball it was created for (ballType and ballId are that ball's fields). */
  datatype Body = Wall | BallBody(ball: Ball)

  /** The ids a body contributes to a merge: none for a wall. */
  function BodyIds(b: Body): set<nat> {
    if b.BallBody? then {b.ball.id} else {}
  }

  /** A collision pair is a merge candidate: both bodies are balls of the same
      tier and that tier is below the terminal one. Then the merged tier still
      indexes BALLS, and a terminal ball on either side never qualifies. */
  predicate Qualifies(a: Body, b: Body): (q: bool)
    ensures q ==> a.BallBody? && b.BallBody? && a.ball.tier == b.ball.tier && a.ball.tier + 1 < TierCount
    ensures a.BallBody? && a.ball.tier == Terminal ==> !q
    ensures b.BallBody? && b.ball.tier == Terminal ==> !q
  {
    && a.BallBody? && b.BallBody?
    && a.ball.tier == b.ball.tier
    && a.ball.tier < Terminal
  }

  /** Radii grow strictly with the tier. */
  lemma RadiiIncreasing(i: Tier, j: Tier)
    requires i < j
    ensures Radii[i] < Radii[j]
  {
  }
}

=== FILE: collision.dfy ===
/** The collision resolver: handleCollision looks at every pair of a
    collisionstart batch and schedules a merge for each qualifying pair whose
    balls are not already scheduled. */
module Collision {
  import opened Balls
  import opened GameState

  /** What the engine promises about a reported pair: the two bodies differ
      and every ball body in it belongs to a live ball. */
  predicate Reported(s: Session, p: Pair) {
    && p.a != p.b
    && (p.a.BallBody? ==> p.a.ball in s.balls)
    && (p.b.BallBody? ==> p.b.ball in s.balls)
  }

  /** One iteration of the forEach: a qualifying pair whose ids are both
      outside mergeScheduled has both ids added and one merge queued; any
      other pair is skipped and only that pair (the return acts as continue). */
  function Resolve(s: Session, p: Pair): (t: Session)
    ensures t.(scheduled := s.scheduled, merges := s.merges) == s
    ensures t != s <==> Qualifies(p.a, p.b) && PairIds(p) !! s.scheduled
    ensures t != s ==> t.merges == s.merges + [p] && t.scheduled == s.scheduled + PairIds(p)
  {
    if Qualifies(p.a, p.b) then
      if p.a.ball.id in s.scheduled || p.b.ball.id in s.scheduled then
        s
      else
        s.(scheduled := s.scheduled + {p.a.ball.id, p.b.ball.id},
           merges := s.merges + [p])
    else
      s
  }

  /** handleCollision(event): every pair of the batch, in order. The first
      pair is resolved first, so of two conflicting pairs the earlier one is
      queued. */
  function HandleCollision(s: Session, pairs: seq<Pair>): (t: Session)
    ensures t.(scheduled := s.scheduled, merges := s.merges) == s
    ensures |pairs| > 0 && Qualifies(pairs[0].a, pairs[0].b) && PairIds(pairs[0]) !! s.scheduled ==>
              |s.merges| < |t.merges| && t.merges[|s.merges|] == pairs[0]
    ensures s.merges <= t.merges && s.scheduled <= t.scheduled
    ensures forall j :: |s.merges| <= j < |t.merges| ==>
              t.merges[j] in pairs && Qualifies(t.merges[j].a, t.merges[j].b)
    ensures forall k :: 0 <= k < |pairs| && Qualifies(pairs[k].a, pairs[k].b) ==>
              !(PairIds(pairs[k]) !! t.scheduled)
    decreases |pairs|
  {
    if |pairs| == 0 then
      s
    else
      HandleCollision(Resolve(s, pairs[0]), pairs[1..])
  }

  /** Resolving one more pair after a batch is resolving it last: together
      with HandleCollision(s, []) == s this fixes the forEach order of the
      whole batch. */
  lemma {:induction false} HandleCollisionSnoc(s: Session, pairs: seq<Pair>, p: Pair)
    ensures HandleCollision(s, pairs + [p]) == Resolve(HandleCollision(s, pairs), p)
    decreases |pairs|
  {
    if |pairs| == 0 {
      assert pairs + [p] == [p];
      assert [p][1..] == [];
    } else {
      assert (pairs + [p])[0] == pairs[0];
      assert (pairs + [p])[1..] == pairs[1..] + [p];
      HandleCollisionSnoc(Resolve(s, pairs[0]), pairs[1..], p);
    }
  }

  /** The forEach loop of handleCollision, pair by pair. */
  method HandleCollisionEvent(s: Session, pairs: seq<Pair>) returns (t: Session)
    ensures t == HandleCollision(s, pairs)
  {
    t := s;
    var i := 0;
    while i < |pairs|
      invariant 0 <= i <= |pairs|
      invariant HandleCollision(t, pairs[i..]) == HandleCollision(s, pairs)
    {
      assert pairs[i..][1..] == pairs[i + 1..];
      t := Resolve(t, pairs[i]);
      i := i + 1;
    }
    assert pairs[i..] == [];
  }

  /** A pair with an id already in mergeScheduled changes nothing, so no ball
      is queued for a second merge while its first is pending. */
  lemma ScheduledIdIsSkipped(s: Session, p: Pair, id: nat)
    requires id in PairIds(p) && id in s.scheduled
    ensures Resolve(s, p) == s
  {
  }

  /** Scheduling a reported pair keeps the session invariant. */
  lemma ResolvePreservesValid(s: Session, p: Pair)
    requires Valid(s) && Reported(s, p)
    ensures Valid(Resolve(s, p))
  {
    var t := Resolve(s, p);
    if t != s {
      assert p.a.ball != p.b.ball;
      QueuedIdsAppend(s.merges, p);
      forall i, j | 0 <= i < j < |t.merges|
        ensures PairIds(t.merges[i]) !! PairIds(t.merges[j])
      {
        if j < |s.merges| {
          assert t.merges[i] == s.merges[i] && t.merges[j] == s.merges[j];
        } else {
          assert t.merges[i] == s.merges[i] && t.merges[j] == p;
          assert PairIds(s.merges[i]) <= s.scheduled;
        }
      }
    }
  }

  /** A whole batch keeps the invariant; in particular no id ends up in two
      queued merges and mergeScheduled is exactly the queued ids. */
  lemma {:induction false} HandleCollisionPreservesValid(s: Session, pairs: seq<Pair>)
    requires Valid(s)
    requires forall p :: p in pairs ==> Reported(s, p)
    ensures Valid(HandleCollision(s, pairs))
    ensures DisjointMerges(HandleCollision(s, pairs).merges)
    decreases |pairs|
  {
    if |pairs| > 0 {
      var s' := Resolve(s, pairs[0]);
      ResolvePreservesValid(s, pairs[0]);
      assert forall p :: p in pairs[1..] ==> p in pairs;
      HandleCollisionPreservesValid(s', pairs[1..]);
    }
  }
}

=== FILE: game.dfy ===
/** The game loop as a transition system: every handler the engine can call
    on the session, and what holds across any sequence of them. */
module Game {
  import opened Balls
  import opened GameState
  import opened Spawn
  import opened Collision
  import opened Merge

  /** What the engine can deliver to a running session. */
  datatype Event =
    | Frame(pointerX: int)          // update() with the pointer's x
    | PointerDown                   // the pointerdown handler, dropBall
    | Collisions(pairs: seq<Pair>)  // one collisionstart batch
    | SpawnTimer(choice: Tier)      // the 500 ms timer fires; choice is the random draw
    | MergeTimer(index: nat)        // the 50 ms timer of the index-th queued merge fires

  /** The events that can occur in a session: reported pairs are about live
      balls, and only timers that were started can fire. */
  predicate Allowed(s: Session, e: Event) {
    match e
    case Frame(_) => true
    case PointerDown => true
    case Collisions(pairs) => forall p :: p in pairs ==> Reported(s, p)
    case SpawnTimer(choice) => s.spawnPending && choice <= MaxStartTier
    case MergeTimer(i) => i < |s.merges|
  }

  /** One handler run to completion. Only a merge changes the score, and it
      raises it by (newTier + 1) * 10; only a merge removes balls, one net. */
  function Next(s: Session, e: Event): (t: Session)
    requires Valid(s) && Allowed(s, e)
    ensures Valid(t)
    ensures !e.MergeTimer? ==> t.score == s.score
    ensures e.MergeTimer? ==> MergeOk(s, s.merges[e.index])
    ensures e.MergeTimer? ==>
              && t.score == s.score + (s.merges[e.index].a.ball.tier + 2) * 10
              && |t.balls| == |s.balls| - 1
    ensures e.Frame? || e.Collisions? || e.SpawnTimer? ==> t.balls == s.balls
    ensures e.PointerDown? ==> |t.balls| == |s.balls| + (if s.canDrop then 1 else 0)
  {
    match e
    case Frame(x) =>
      TrackPreservesValid(s, x);
      Track(s, x)
    case PointerDown =>
      DropPreservesValid(s);
      DropBall(s)
    case Collisions(pairs) =>
      HandleCollisionPreservesValid(s, pairs);
      HandleCollision(s, pairs)
    case SpawnTimer(choice) =>
      FireSpawnPreservesValid(s, choice);
      FireSpawn(s, choice)
    case MergeTimer(i) =>
      FireMergePreservesValid(s, i);
      FireMergeBalls(s, i);
      FireMerge(s, i)
  }

  /** Runs a sequence of events; None if one of them cannot occur. */
  function Run(s: Session, events: seq<Event>): (r: Option<Session>)
    requires Valid(s)
    ensures r.Some? ==> Valid(r.value) && r.value.score >= s.score
    decreases |events|
  {
    if |events| == 0 then
      Some(s)
    else if !Allowed(s, events[0]) then
      None
    else
      Run(Next(s, events[0]), events[1..])
  }

  /** A run that completes passes through every prefix, and the score of a
      prefix is at most the score of the whole run. */
  lemma {:induction false} RunPrefix(s: Session, events: seq<Event>, k: nat)
    requires Valid(s) && k <= |events|
    requires Run(s, events).Some?
    ensures Run(s, events[..k]).Some?
    ensures Run(s, events[..k]).value.score <= Run(s, events).value.score
    decreases k
  {
    if k > 0 {
      assert events[..k][0] == events[0];
      assert events[..k][1..] == events[1..][..k - 1];
      RunPrefix(Next(s, events[0]), events[1..], k - 1);
    }
  }

  /** Running one allowed event and then the rest. */
  lemma RunCons(s: Session, e: Event, rest: seq<Event>)
    requires Valid(s) && Allowed(s, e)
    ensures Run(s, [e] + rest) == Run(Next(s, e), rest)
  {
  }

  /** The pending ball, when there is one, sits at the spawn position. */
  predicate AtSpawn(s: Session) {
    s.current.Some? ==> s.current.value.x == SpawnX
  }

  /** One handler as the source writes it: frames go to UpdateAsWritten,
      every other event to the same handler as in Next. */
  function NextAsWritten(s: Session, e: Event): (t: Session)
    requires Valid(s) && Allowed(s, e)
    ensures Valid(t)
    ensures AtSpawn(s) ==> AtSpawn(t)
    ensures t.score >= s.score
  {
    if e.Frame? then
      UpdateAsWritten(s, e.pointerX)
    else
      Next(s, e)
  }

  /** Runs a sequence of events through the handlers as written; None if one
      of them cannot occur. */
  function RunAsWritten(s: Session, events: seq<Event>): (r: Option<Session>)
    requires Valid(s)
    ensures r.Some? ==> Valid(r.value) && r.value.score >= s.score
    decreases |events|
  {
    if |events| == 0 then
      Some(s)
    else if !Allowed(s, events[0]) then
      None
    else
      RunAsWritten(NextAsWritten(s, events[0]), events[1..])
  }

  /** As written, the pending ball never follows the pointer: in every run
      from the start of the game, whatever the pointer does, the pending
      ball is at x = 300 whenever it exists, so every ball is dropped there. */
  lemma {:induction false} PendingStaysAtSpawnAsWritten(s: Session, events: seq<Event>)
    requires Valid(s) && AtSpawn(s)
    requires RunAsWritten(s, events).Some?
    ensures AtSpawn(RunAsWritten(s, events).value)
    decreases |events|
  {
    if |events| > 0 {
      PendingStaysAtSpawnAsWritten(NextAsWritten(s, events[0]), events[1..]);
    }
  }

  /** The same from the start of the game, where the pending ball is placed
      at the spawn position by prepareNextBall. */
  lemma AsWrittenFromStart(choice: Tier, events: seq<Event>)
    requires choice <= MaxStartTier
    requires RunAsWritten(Start(choice), events).Some?
    ensures var t := RunAsWritten(Start(choice), events).value;
            t.current.Some? ==> t.current.value.x == SpawnX
  {
    PendingStaysAtSpawnAsWritten(Start(choice), events);
  }

  /** The two ping-pong balls of the worked game below. */
  const PingA: Ball := Ball(0, 0, 15)
  const PingB: Ball := Ball(1, 0, 15)

  /** The collisionstart batch of the worked game: the same contact reported
      once in each order. */
  const Batch: seq<Pair> := [Pair(BallBody(PingA), BallBody(PingB)), Pair(BallBody(PingB), BallBody(PingA))]

  /** Start with a ping-pong ball pending, drop it, let the spawn timer draw
      another ping-pong ball and drop that one: two balls, nothing scheduled. */
  lemma TwoDrops()
    ensures Run(Start(0), [PointerDown, SpawnTimer(0), PointerDown]) ==
            Some(Session([PingA, PingB], {}, [], 0, false, None, true, 2))
  {
    var s0 := Start(0);
    var s1 := Next(s0, PointerDown);
    var s2 := Next(s1, SpawnTimer(0));
    var s3 := Next(s2, PointerDown);
    assert s3 == Session([PingA, PingB], {}, [], 0, false, None, true, 2);
    RunCons(s2, PointerDown, []);
    RunCons(s1, SpawnTimer(0), [PointerDown]);
    RunCons(s0, PointerDown, [SpawnTimer(0), PointerDown]);
  }

  /** The batch queues one merge: the reversed pair is skipped because its
      ids are already scheduled. */
  lemma BatchQueuesOnce()
    ensures var s := Session([PingA, PingB], {}, [], 0, false, None, true, 2);
            && Valid(s) && Allowed(s, Collisions(Batch))
            && Next(s, Collisions(Batch)) == Session([PingA, PingB], {0, 1}, [Batch[0]], 0, false, None, true, 2)
  {
    var s := Session([PingA, PingB], {}, [], 0, false, None, true, 2);
    assert QueuedIds([]) == {};
    assert Valid(s);
    assert Reported(s, Batch[0]) && Reported(s, Batch[1]);
    assert forall p :: p in Batch ==> p == Batch[0] || p == Batch[1];
    var t := Resolve(s, Batch[0]);
    assert t == Session([PingA, PingB], {0, 1}, [Batch[0]], 0, false, None, true, 2);
    assert Resolve(t, Batch[1]) == t;
    assert Batch[1..][1..] == [];
    assert HandleCollision(t, Batch[1..]) == HandleCollision(t, []);
    assert HandleCollision(s, Batch) == HandleCollision(t, Batch[1..]);
  }

  /** A third ping-pong ball touching PingB. */
  const PingC: Ball := Ball(2, 0, 15)

  /** Two pairs in one batch share PingB: the earlier pair is queued, the
      later one is skipped, and PingC stays free. */
  lemma EarlierPairWins()
    ensures var s := Session([PingA, PingB, PingC], {}, [], 0, false, None, true, 3);
            var t := HandleCollision(s, [Pair(BallBody(PingA), BallBody(PingB)), Pair(BallBody(PingB), BallBody(PingC))]);
            t.merges == [Pair(BallBody(PingA), BallBody(PingB))] && 2 !in t.scheduled
  {
    var s := Session([PingA, PingB, PingC], {}, [], 0, false, None, true, 3);
    var p := Pair(BallBody(PingA), BallBody(PingB));
    var q := Pair(BallBody(PingB), BallBody(PingC));
    var t := Resolve(s, p);
    assert t == s.(scheduled := {0, 1}, merges := [p]);
    assert Resolve(t, q) == t;
    assert [p, q][1..] == [q];
    assert [q][1..] == [];
    assert HandleCollision(t, [q]) == HandleCollision(t, []);
  }

  /** The merge timer fires: one golf ball is left and the score is (1 + 1) * 10 = 20. */
  lemma MergeFires()
    ensures var s := Session([PingA, PingB], {0, 1}, [Batch[0]], 0, false, None, true, 2);
            && Valid(s) && Allowed(s, MergeTimer(0))
            && Next(s, MergeTimer(0)) == Session([Ball(2, 1, 20)], {}, [], 20, false, None, true, 3)
  {
  }

  /** The whole worked game as one run. */
  lemma FirstMerge()
    ensures Run(Start(0), [PointerDown, SpawnTimer(0), PointerDown, Collisions(Batch), MergeTimer(0)]) ==
            Some(Session([Ball(2, 1, 20)], {}, [], 20, false, None, true, 3))
  {
    var s0 := Start(0);
    var s1 := Next(s0, PointerDown);
    var s2 := Next(s1, SpawnTimer(0));
    var s3 := Next(s2, PointerDown);
    TwoDrops();
    RunCons(s2, PointerDown, []);
    RunCons(s1, SpawnTimer(0), [PointerDown]);
    RunCons(s0, PointerDown, [SpawnTimer(0), PointerDown]);
    assert s3 == Session([PingA, PingB], {}, [], 0, false, None, true, 2);
    BatchQueuesOnce();
    MergeFires();
    var s4 := Next(s3, Collisions(Batch));
    var s5 := Next(s4, MergeTimer(0));
    RunCons(s4, MergeTimer(0), []);
    RunCons(s3, Collisions(Batch), [MergeTimer(0)]);
    RunCons(s2, PointerDown, [Collisions(Batch), MergeTimer(0)]);
    RunCons(s1, SpawnTimer(0), [PointerDown, Collisions(Batch), MergeTimer(0)]);
    RunCons(s0, PointerDown, [SpawnTimer(0), PointerDown, Collisions(Batch), MergeTimer(0)]);
  }
}

=== FILE: gamestate.dfy ===
/** The game's global mutable state gathered into one immutable session
    record, and the invariant every reachable session keeps. */
module GameState {
  import opened Balls

  datatype Option<T> = None | Some(value: T)

  /** The pointer x range the pending ball is clamped to. */
  const LeftBound: int := 70
  const RightBound: int := 530

  /** Where prepareNextBall places a fresh pending ball. */
  const SpawnX: int := 300

  /** The not-yet-dropped ball (currentBall): its tier and tracked x. */
  datatype Pending = Pending(tier: Tier, x: int)

  /** A pair of bodies: a collision pair reported by the engine, and also the
      arguments of a scheduled mergeBalls(bodyA, bodyB) call. */
  datatype Pair = Pair(a: Body, b: Body)

  /** The session:
      - balls: droppedBalls, in insertion order
      - scheduled: the ids in mergeScheduled
      - merges: the 50 ms merge timers that have not fired yet
      - score, canDrop, current (currentBall, None for null)
      - spawnPending: the 500 ms prepareNextBall timer has not fired yet
      - nextId: the source of fresh ball ids */
  datatype Session = Session(
    balls: seq<Ball>,
    scheduled: set<nat>,
    merges: seq<Pair>,
    score: nat,
    canDrop: bool,
    current: Option<Pending>,
    spawnPending: bool,
    nextId: nat)

  /** The ids the two bodies of a pair carry. */
  function PairIds(p: Pair): set<nat> {
    BodyIds(p.a) + BodyIds(p.b)
  }

  /** Every id held by some scheduled merge. */
  function QueuedIds(q: seq<Pair>): (ids: set<nat>)
    ensures forall j :: 0 <= j < |q| ==> PairIds(q[j]) <= ids
  {
    set j, x | 0 <= j < |q| && x in PairIds(q[j]) :: x
  }

  /** No two balls share an id. */
  predicate UniqueIds(balls: seq<Ball>) {
    forall i, j :: 0 <= i < j < |balls| ==> balls[i].id != balls[j].id
  }

  /** No id takes part in two scheduled merges. */
  predicate DisjointMerges(q: seq<Pair>) {
    forall i, j :: 0 <= i < j < |q| ==> PairIds(q[i]) !! PairIds(q[j])
  }

  /** The live balls have distinct ids below the id counter and radii from BALLS. */
  predicate BallsOk(s: Session) {
    && UniqueIds(s.balls)
    && forall b :: b in s.balls ==> WellFormed(b) && b.id < s.nextId
  }

  /** A scheduled merge qualified when it was scheduled, and both of its balls
      are still live and distinct. */
  predicate MergeOk(s: Session, p: Pair) {
    && Qualifies(p.a, p.b)
    && p.a.ball in s.balls
    && p.b.ball in s.balls
    && p.a.ball.id != p.b.ball.id
  }

  /** mergeScheduled holds exactly the ids of the merges that have not fired,
      and those merges share no id. */
  predicate MergesOk(s: Session) {
    && (forall p :: p in s.merges ==> MergeOk(s, p))
    && DisjointMerges(s.merges)
    && s.scheduled == QueuedIds(s.merges)
  }

  /** Dropping is enabled exactly while a pending ball exists, the spawn timer
      runs exactly while it is disabled, and the pending ball is a starting
      tier inside the clamp range. */
  predicate DropOk(s: Session) {
    && s.canDrop == s.current.Some?
    && s.spawnPending == !s.canDrop
    && (s.current.Some? ==>
          && s.current.value.tier <= MaxStartTier
          && LeftBound <= s.current.value.x <= RightBound)
  }

  /** The invariant of every session reachable from the start of the game. */
  predicate Valid(s: Session) {
    BallsOk(s) && MergesOk(s) && DropOk(s)
  }

  /** The session before create() calls prepareNextBall. */
  const Initial: Session := Session([], {}, [], 0, true, None, false, 0)

  /** Every scheduled id belongs to a live ball, so it is below the id counter. */
  lemma ScheduledBelowNextId(s: Session)
    requires Valid(s)
    ensures forall x :: x in s.scheduled ==> x < s.nextId
  {
    forall x | x in s.scheduled
      ensures x < s.nextId
    {
      var j :| 0 <= j < |s.merges| && x in PairIds(s.merges[j]);
      assert s.merges[j] in s.merges;
      assert MergeOk(s, s.merges[j]);
    }
  }

  /** Queuing one more merge adds exactly its ids. */
  lemma QueuedIdsAppend(q: seq<Pair>, p: Pair)
    ensures QueuedIds(q + [p]) == QueuedIds(q) + PairIds(p)
  {
    var q' := q + [p];
    forall x | x in QueuedIds(q')
      ensures x in QueuedIds(q) + PairIds(p)
    {
      var j :| 0 <= j < |q'| && x in PairIds(q'[j]);
      if j < |q| {
        assert q'[j] == q[j];
      }
    }
    forall x | x in QueuedIds(q)
      ensures x in QueuedIds(q')
    {
      var j :| 0 <= j < |q| && x in PairIds(q[j]);
      assert q'[j] == q[j];
    }
    assert q'[|q|] == p;
  }

  /** The queue with the merge at index i taken out (its timer fired). */
  function RemoveAt(q: seq<Pair>, i: nat): (r: seq<Pair>)
    requires i < |q|
    ensures |r| == |q| - 1
    ensures forall k :: 0 <= k < i ==> r[k] == q[k]
    ensures forall k :: i <= k < |r| ==> r[k] == q[k + 1]
  {
    q[..i] + q[i + 1..]
  }

  /** Firing one merge of a disjoint queue takes exactly its ids out. */
  lemma QueuedIdsRemove(q: seq<Pair>, i: nat)
    requires i < |q| && DisjointMerges(q)
    ensures QueuedIds(RemoveAt(q, i)) == QueuedIds(q) - PairIds(q[i])
  {
    var r := RemoveAt(q, i);
    forall x | x in QueuedIds(r)
      ensures x !in PairIds(q[i])
    {
      var j :| 0 <= j < |r| && x in PairIds(r[j]);
      if j < i {
        assert r[j] == q[j];
        assert PairIds(q[j]) !! PairIds(q[i]);
      } else {
        assert r[j] == q[j + 1];
        assert PairIds(q[i]) !! PairIds(q[j + 1]);
      }
    }
    forall x | x in QueuedIds(r)
      ensures x in QueuedIds(q)
    {
      var j :| 0 <= j < |r| && x in PairIds(r[j]);
      if j < i {
        assert r[j] == q[j];
      } else {
        assert r[j] == q[j + 1];
      }
    }
    forall x | x in QueuedIds(q) - PairIds(q[i])
      ensures x in QueuedIds(r)
    {
      var k :| 0 <= k < |q| && x in PairIds(q[k]);
      if k < i {
        assert r[k] == q[k];
      } else {
        assert r[k - 1] == q[k];
      }
    }
  }

  /** The merges left after one fires still share no id. */
  lemma DisjointAfterRemove(q: seq<Pair>, i: nat)
    requires i < |q| && DisjointMerges(q)
    ensures DisjointMerges(RemoveAt(q, i))
  {
  }
}

=== FILE: merge.dfy ===
/** The merge executor: mergeBalls, run when a scheduled 50 ms merge timer
    fires. */
module Merge {
  import opened Balls
  import opened GameState

  /** The filter mergeBalls applies to droppedBalls: every ball except the
      two merged ones, in the original order. Ball records carry distinct
      ids, so value equality stands for object identity. */
  function Without(balls: seq<Ball>, x: Ball, y: Ball): (r: seq<Ball>)
    ensures forall b :: b in r <==> b in balls && b != x && b != y
    ensures |r| <= |balls|
    decreases |balls|
  {
    if |balls| == 0 then
      []
    else
      (if balls[0] == x || balls[0] == y then [] else [balls[0]]) + Without(balls[1..], x, y)
  }

  /** The filter drops every copy of the two balls and keeps every other ball. */
  lemma {:induction false} WithoutCount(balls: seq<Ball>, x: Ball, y: Ball)
    requires x != y
    ensures |Without(balls, x, y)| + multiset(balls)[x] + multiset(balls)[y] == |balls|
    decreases |balls|
  {
    if |balls| > 0 {
      WithoutCount(balls[1..], x, y);
      assert balls == [balls[0]] + balls[1..];
      assert multiset(balls) == multiset{balls[0]} + multiset(balls[1..]);
    }
  }

  /** In a sequence of distinct ids every member occurs once. */
  lemma {:induction false} OccursOnce(balls: seq<Ball>, x: Ball)
    requires UniqueIds(balls) && x in balls
    ensures multiset(balls)[x] == 1
    decreases |balls|
  {
    assert balls == [balls[0]] + balls[1..];
    assert multiset(balls) == multiset{balls[0]} + multiset(balls[1..]);
    if balls[0] == x {
      assert forall k :: 0 <= k < |balls[1..]| ==> balls[1..][k].id != x.id by {
        forall k | 0 <= k < |balls[1..]|
          ensures balls[1..][k].id != x.id
        {
          assert balls[1..][k] == balls[k + 1];
        }
      }
      assert x !in balls[1..];
    } else {
      OccursOnce(balls[1..], x);
    }
  }

  /** Filtering keeps ids distinct. */
  lemma {:induction false} WithoutUnique(balls: seq<Ball>, x: Ball, y: Ball)
    requires UniqueIds(balls)
    ensures UniqueIds(Without(balls, x, y))
    decreases |balls|
  {
    if |balls| > 0 {
      var rest := Without(balls[1..], x, y);
      WithoutUnique(balls[1..], x, y);
      forall b | b in rest
        ensures b.id != balls[0].id
      {
        var k :| 0 <= k < |balls[1..]| && balls[1..][k] == b;
        assert balls[k + 1] == b;
      }
    }
  }

  /** mergeBalls(bodyA, bodyB). The guard only asks whether each body has a
      ballObject; a ball body always has one (it is set at creation and never
      cleared), so the guard turns away walls, not balls that were already
      removed. Otherwise both balls leave droppedBalls, both ids leave
      mergeScheduled, one ball of the next tier with a fresh id is appended
      and the score grows by (newTier + 1) * 10. The new tier is read as
      bodyA's tier plus one and must index BALLS. */
  function MergeBalls(s: Session, a: Body, b: Body): (t: Session)
    requires a.BallBody? && b.BallBody? ==> a.ball.tier < Terminal
    ensures !a.BallBody? || !b.BallBody? ==> t == s
    ensures a.BallBody? && b.BallBody? ==>
              var newTier := a.ball.tier + 1;
              && t.score == s.score + (newTier + 1) * 10
              && t.scheduled == s.scheduled - {a.ball.id, b.ball.id}
              && |t.balls| > 0
              && t.balls[|t.balls| - 1].tier == newTier
              && t.balls[|t.balls| - 1].id == s.nextId
              && WellFormed(t.balls[|t.balls| - 1])
              && (forall x :: x in t.balls[..|t.balls| - 1] <==>
                               x in s.balls && x != a.ball && x != b.ball)
    ensures t.(balls := s.balls, scheduled := s.scheduled, score := s.score, nextId := s.nextId) == s
  {
    if !a.BallBody? || !b.BallBody? then
      s
    else
      var newTier := a.ball.tier + 1;
      var rest := Without(s.balls, a.ball, b.ball);
      var merged := Ball(s.nextId, newTier, Radii[newTier]);
      assert (rest + [merged])[..|rest|] == rest;
      s.(balls := rest + [merged],
         scheduled := s.scheduled - {a.ball.id, b.ball.id},
         score := s.score + (newTier + 1) * 10,
         nextId := s.nextId + 1)
  }

  /** The merge timer at index i of the queue fires and runs mergeBalls on
      its pair. Every queued pair qualified when it was queued. */
  function FireMerge(s: Session, i: nat): (t: Session)
    requires i < |s.merges| && Qualifies(s.merges[i].a, s.merges[i].b)
    ensures t.merges == RemoveAt(s.merges, i)
    ensures t.score > s.score
  {
    var p := s.merges[i];
    MergeBalls(s.(merges := RemoveAt(s.merges, i)), p.a, p.b)
  }

  /** Filtering out two distinct live balls and appending one with an id no
      live ball has leaves one ball fewer, all ids still distinct. */
  lemma ReplaceTwoByOne(balls: seq<Ball>, x: Ball, y: Ball, n: Ball)
    requires UniqueIds(balls) && x in balls && y in balls && x != y
    requires forall b :: b in balls ==> b.id != n.id
    ensures |Without(balls, x, y) + [n]| == |balls| - 1
    ensures UniqueIds(Without(balls, x, y) + [n])
  {
    var rest := Without(balls, x, y);
    WithoutCount(balls, x, y);
    OccursOnce(balls, x);
    OccursOnce(balls, y);
    WithoutUnique(balls, x, y);
    var r := rest + [n];
    forall j, k | 0 <= j < k < |r|
      ensures r[j].id != r[k].id
    {
      assert r[j] == rest[j];
      if k < |rest| {
        assert r[k] == rest[k];
      } else {
        assert r[j] in balls;
      }
    }
  }

  /** Firing a merge from a valid session removes exactly the two source
      balls, adds exactly one ball of the next tier, larger than its sources,
      with a fresh id, and clears both source ids from mergeScheduled. */
  lemma FireMergeBalls(s: Session, i: nat)
    requires Valid(s) && i < |s.merges|
    ensures s.merges[i] in s.merges && MergeOk(s, s.merges[i])
    ensures var p := s.merges[i];
            var t := FireMerge(s, i);
            && BallsOk(t)
            && |t.balls| == |s.balls| - 1
            && p.a.ball !in t.balls && p.b.ball !in t.balls
            && p.a.ball.id !in t.scheduled && p.b.ball.id !in t.scheduled
            && (forall x :: x in s.balls && x != p.a.ball && x != p.b.ball ==> x in t.balls)
            && (exists n :: && n in t.balls && n !in s.balls
                            && n.tier == p.a.ball.tier + 1
                            && n.radius == Radii[n.tier]
                            && n.radius > p.a.ball.radius
                            && forall x :: x in t.balls ==> x == n || x in s.balls)
  {
    var p := s.merges[i];
    assert MergeOk(s, p);
    var t := FireMerge(s, i);
    var rest := Without(s.balls, p.a.ball, p.b.ball);
    var n := t.balls[|t.balls| - 1];
    assert t.balls == rest + [n];
    ReplaceTwoByOne(s.balls, p.a.ball, p.b.ball, n);
    RadiiIncreasing(p.a.ball.tier, n.tier);
    assert n in t.balls && n !in s.balls;
  }

  /** Two different queued merges of a valid session share no ball. */
  lemma OtherMergeKeepsBalls(s: Session, i: nat, k: nat)
    requires Valid(s) && i < |s.merges| && k < |s.merges| && i != k
    ensures MergeOk(s, s.merges[k])
    ensures MergeOk(s, s.merges[i])
    ensures s.merges[k].a.ball !in {s.merges[i].a.ball, s.merges[i].b.ball}
    ensures s.merges[k].b.ball !in {s.merges[i].a.ball, s.merges[i].b.ball}
  {
  }

  /** What firing merge i does to the queue and to mergeScheduled. */
  lemma FireMergeSchedule(s: Session, i: nat)
    requires Valid(s) && i < |s.merges|
    ensures s.merges[i] in s.merges && MergeOk(s, s.merges[i])
    ensures var t := FireMerge(s, i);
            && t.merges == RemoveAt(s.merges, i)
            && t.scheduled == QueuedIds(t.merges)
            && DisjointMerges(t.merges)
  {
    var p := s.merges[i];
    assert p in s.merges;
    var t := FireMerge(s, i);
    assert t.scheduled == s.scheduled - PairIds(p);
    QueuedIdsRemove(s.merges, i);
    DisjointAfterRemove(s.merges, i);
  }

  /** The merges still queued after one fires keep their balls live, share no
      id, and mergeScheduled still holds exactly their ids. */
  lemma FireMergeQueue(s: Session, i: nat)
    requires Valid(s) && i < |s.merges|
    ensures s.merges[i] in s.merges && MergeOk(s, s.merges[i])
    ensures MergesOk(FireMerge(s, i))
  {
    var p := s.merges[i];
    assert p in s.merges;
    FireMergeSchedule(s, i);
    var t := FireMerge(s, i);
    var q := t.merges;
    forall r | r in q
      ensures MergeOk(t, r)
    {
      var k :| 0 <= k < |q| && q[k] == r;
      var k' := if k < i then k else k + 1;
      assert s.merges[k'] == r;
      OtherMergeKeepsBalls(s, i, k');
      assert r.a.ball in t.balls[..|t.balls| - 1];
      assert r.b.ball in t.balls[..|t.balls| - 1];
    }
  }

  /** Firing a merge keeps the session invariant; the new ball's id is not
      in mergeScheduled. */
  lemma FireMergePreservesValid(s: Session, i: nat)
    requires Valid(s) && i < |s.merges|
    ensures s.merges[i] in s.merges && MergeOk(s, s.merges[i])
    ensures Valid(FireMerge(s, i))
    ensures var t := FireMerge(s, i); t.balls[|t.balls| - 1].id !in t.scheduled
  {
    assert s.merges[i] in s.merges;
    FireMergeBalls(s, i);
    FireMergeQueue(s, i);
    var t := FireMerge(s, i);
    assert DropOk(t);
    ScheduledBelowNextId(s);
  }
}

=== FILE: spawn.dfy ===
/** Spawn and drop gating: prepareNextBall, dropBall, the spawn timer and the
    pointer tracking that update() does for the pending ball. */
module Spawn {
  import opened Balls
  import opened GameState

  function Min(a: int, b: int): int { if a <= b then a else b }
  function Max(a: int, b: int): int { if a <= b then b else a }

  /** Phaser.Math.Clamp(x, lo, hi), that is max(lo, min(hi, x)). */
  function Clamp(x: int, lo: int, hi: int): (r: int)
    requires lo <= hi
    ensures lo <= r <= hi
    ensures lo <= x <= hi ==> r == x
    ensures x < lo ==> r == lo
    ensures hi < x ==> r == hi
  {
    Max(lo, Min(hi, x))
  }

  /** update() as intended: while a pending ball exists and dropping is
      enabled, it follows the pointer's x clamped to [LeftBound, RightBound].
      The setPosition call in update() (game.js:108) does not do this; see UpdateAsWritten. */
  function Track(s: Session, pointerX: int): (t: Session)
    ensures s.current.Some? && s.canDrop ==>
              && t.current.Some?
              && t.current.value.tier == s.current.value.tier
              && t.current.value.x == Clamp(pointerX, LeftBound, RightBound)
    ensures !(s.current.Some? && s.canDrop) ==> t == s
    ensures t.(current := s.current) == s
  {
    if s.current.Some? && s.canDrop then
      s.(current := Some(Pending(s.current.value.tier, Clamp(pointerX, LeftBound, RightBound))))
    else
      s
  }

  /** update() as the source writes it. The pending ball is the plain record
      built by prepareNextBall (graphics, type, radius), which has no
      setPosition method, so on every frame with a pending ball and dropping
      enabled the setPosition call (game.js:108) throws before anything is written. The
      session is left exactly as it was, in every case. */
  function UpdateAsWritten(s: Session, pointerX: int): (t: Session)
    ensures t.current == s.current && t.balls == s.balls
    ensures t.(current := s.current) == s
  {
    s
  }

  /** The two frame handlers part ways on the first frame after create(): with
      the pointer at x = 10 the intended one moves the pending ball to the
      left bound, the written one leaves it at the spawn position. */
  lemma UpdateAsWrittenIgnoresPointer()
    ensures Track(Start(0), 10).current.value.x == LeftBound
    ensures UpdateAsWritten(Start(0), 10).current.value.x == SpawnX
    ensures LeftBound != SpawnX
  {
  }

  /** prepareNextBall(): the chosen tier (Phaser.Math.Between(0, 3), passed in)
      becomes the pending ball at the spawn position, replacing any previous
      one, and dropping is enabled again. */
  function PrepareNextBall(s: Session, choice: Tier): (t: Session)
    requires choice <= MaxStartTier
    ensures t.canDrop && t.current.Some?
    ensures t.current.value.tier == choice
    ensures t.current.value.x == SpawnX
    ensures t.(canDrop := s.canDrop, current := s.current) == s
  {
    s.(current := Some(Pending(choice, SpawnX)), canDrop := true)
  }

  /** The session right after create(): prepareNextBall on the initial state. */
  function Start(choice: Tier): (t: Session)
    requires choice <= MaxStartTier
    ensures Valid(t)
    ensures t.balls == [] && t.merges == [] && t.score == 0
    ensures t.canDrop && t.current.Some? && t.current.value.tier == choice
    ensures t.current.value.x == SpawnX
  {
    PrepareNextBall(Initial, choice)
  }

  /** dropBall(): a no-op unless dropping is enabled and a pending ball
      exists; otherwise the pending ball becomes a dropped ball with a fresh
      id, dropping is disabled and the spawn timer is started. */
  function DropBall(s: Session): (t: Session)
    ensures !s.canDrop || s.current.None? ==> t == s
    ensures s.canDrop && s.current.Some? ==>
              && !t.canDrop && t.current.None? && t.spawnPending
              && |t.balls| == |s.balls| + 1
              && t.balls[..|s.balls|] == s.balls
              && t.balls[|s.balls|].tier == s.current.value.tier
              && t.balls[|s.balls|].id == s.nextId
              && WellFormed(t.balls[|s.balls|])
              && t.merges == s.merges && t.scheduled == s.scheduled
              && t.score == s.score
  {
    if !s.canDrop || s.current.None? then
      s
    else
      s.(balls := s.balls + [Ball(s.nextId, s.current.value.tier, Radii[s.current.value.tier])],
         canDrop := false,
         current := None,
         spawnPending := true,
         nextId := s.nextId + 1)
  }

  /** The 500 ms timer that dropBall started fires: prepareNextBall runs. */
  function FireSpawn(s: Session, choice: Tier): (t: Session)
    requires s.spawnPending && choice <= MaxStartTier
    ensures !t.spawnPending && t.canDrop
    ensures t.current.Some? && t.current.value.tier == choice
    ensures t.balls == s.balls && t.merges == s.merges && t.score == s.score
  {
    PrepareNextBall(s.(spawnPending := false), choice)
  }

  lemma TrackPreservesValid(s: Session, pointerX: int)
    requires Valid(s)
    ensures Valid(Track(s, pointerX))
  {
  }

  lemma DropPreservesValid(s: Session)
    requires Valid(s)
    ensures Valid(DropBall(s))
    ensures s.canDrop && s.current.Some? ==>
              forall b :: b in s.balls ==> b.id != DropBall(s).balls[|s.balls|].id
  {
  }

  lemma FireSpawnPreservesValid(s: Session, choice: Tier)
    requires Valid(s) && s.spawnPending && choice <= MaxStartTier
    ensures Valid(FireSpawn(s, choice))
  {
  }
}
